=== FILE: README.md ===
# DNS tunnelling detection GUI: supervisor and log-tailing core

A Dafny model of the logic inside the desktop application `gui.py`. The
application starts and stops a packet-capture child process (`capture.py`),
shows newly captured DNS queries from the append-only log `dns_log.csv`,
runs an analysis job (`predict.py`) and lists the suspicious queries it wrote
to `dns_predictions.csv`. The model keeps the four pieces of that code that
have rules worth checking. Files, processes and dialogs become plain values
passed in as parameters.

- **Tail reader** (`capture_log.dfy`; `Gui.DnsTunnelingGui.LoadCapturedQueries`):
  - The cursor `lastCaptureCount` counts the rows already shown.
  - A poll emits only the rows past the cursor, and only when the file grew.
  - Each emitted row is rendered with "N/A" for missing fields, and as a
    response exactly when `is_response` is `"1"`.
  - `ExactlyOnce` proves that over reads whose parsed rows only extend each
    other, any run of polls emits every appended row once, in file order.
- **Snapshot reader** (`predictions.dfy`; `Gui.DnsTunnelingGui.LoadSuspiciousQueries`):
  - Each read re-reads the whole predictions file.
  - A row is suspicious when its prediction contains `Suspicious` or the
    red-circle sign.
  - "No analysis yet", "read error", "all safe out of N" and "S suspicious
    out of N" are separate outcomes.
  - The method's two-counter loop is proved equal to the function `SnapshotOf`.
- **Analyse gate** (`analysis.dfy`): the checks run in a fixed order.
  - First: is there capture data (the log exists and is non-empty)?
  - Then: does the model exist? Then: does the prediction script exist?
  - The job is started only when all three checks pass.
  - The predictions file is read only when the job exits with code 0.
- **Capture supervisor** (`capture_process.dfy`; `gui.dfy`):
  - The state is `captureProcess` and `monitoring`.
  - Start keeps a process only if it is still alive after the grace period.
  - Stop runs the platform's sequence of operating-system calls. How the
    process and those calls behave is an input.
  - Stop always ends with no process and monitoring off.
  - Closing the window stops a running capture first, but only if the user
    confirms.

Behaviour of the code worth knowing:
- Starting has no "already running" error. The Start button is only hidden
  while a capture runs. `StartCapture` therefore has no such outcome and no
  precondition on `captureProcess`.
- The tail cursor is not only non-decreasing. A successful start resets it to
  0, so the next poll shows the existing log again from its first row.
- Stop reports failure whenever any call outside `taskkill` raises, not
  only when both the graceful and the forced termination fail.
- On Windows, the exit status of `taskkill` is never checked. If taskkill
  runs but does not end the process, stop still reports success and forgets
  the process. `CaptureProcess.CleanStopLeavesNoProcess` states exactly when
  this can happen.

## Model

| member | source | states |
|---|---|---|
| `CaptureLog.Render` | gui.py:361-372 | a missing timestamp, qname, src_ip or dst_ip is shown as "N/A", a present one as written; the row is a response if and only if is_response is present and equal to "1" (a missing one counts as "0") |
| `CaptureLog.Poll` | gui.py:344-394 | the cursor never decreases and advances by exactly the number of rows emitted; when the file has more rows than the cursor, the rows past it are emitted in file order and the cursor becomes the row count; an absent or unreadable file, or one with no more rows than the cursor, emits nothing and keeps the cursor |
| `CaptureLog.PollAll` | gui.py:452-458 | over any run of polls the cursor never decreases and the number of rows emitted equals how far it moved |
| `CaptureLog.ExactlyOnce` | gui.py:357-361 | over reads whose parsed rows only extend each other, a run of polls from a cursor equal to the rows already seen emits exactly the rows appended since, each once and in order, and leaves the cursor at the last observed row count |
| `Predictions.ContainsIff` | gui.py:421 | the substring test holds if and only if the label occurs at some position of the text |
| `Predictions.MarkerAnywhereIsSuspicious` | gui.py:421 | any text with "Suspicious" or the red-circle sign embedded anywhere is suspicious |
| `Predictions.SuspiciousEncodings` | gui.py:420-421 | "Suspicious - tunneling" and the red-circle sign alone are both suspicious |
| `Predictions.BenignExamples` | gui.py:421 | "Benign" and the lower-case "suspicious" are not suspicious |
| `Predictions.MissingPredictionIsBenign` | gui.py:417-421 | a row without a prediction column (read as "") is never suspicious |
| `Predictions.Flagged` | gui.py:414-425 | never more suspicious entries than rows; no entries if and only if no row is suspicious |
| `Predictions.FlaggedAppend` | gui.py:414-425 | the suspicious entries of a file are those of its first part followed by those of the rest |
| `Predictions.FlaggedSingle` | gui.py:420-425 | one row yields its qname/confidence entry if and only if it is suspicious |
| `Predictions.SnapshotOf` | gui.py:396-445 | an absent file, and only it, gives "no analysis yet"; a failed read, and only it, gives the error with its message; otherwise the total is the row count, and when some row is suspicious the result lists exactly the flagged rows' qname/confidence entries in file order (so the suspicious count never exceeds the total); the result is "all safe out of N" if and only if no row is suspicious |
| `Analysis.Analyse` | gui.py:463-532 | no capture data (log absent or size 0) gives NoData whatever else is missing; then a missing model gives ModelNotFound; then a missing predict.py gives PredictScriptNotFound; the job is started if and only if all three exist; predictions are loaded if and only if the job was started and exited with 0; a non-zero exit and a launch that raises give their own outcomes |
| `Analysis.PredictionsReadOnlyOnSuccess` | gui.py:514-526 | unless the analysis completed, the outcome does not depend on the predictions file |
| `Analysis.EmptyProjectIsNoData` | gui.py:468-473 | an empty project directory gives NoData and the job is never started |
| `CaptureProcess.Stop` | gui.py:293-320 | stopping always polls first; a process that had already exited is left alone; a running process gets its platform's planned calls (posix: terminate, wait 3s, on timeout kill and wait; Windows: taskkill, or on its raise terminate, wait 2s, on timeout kill) in order, either all of them or up to and including the first call other than taskkill that raises; a raise from poll, terminate, wait or kill ends the procedure, with no call after it; the procedure raises exactly when such a call raised, and taskkill's raise is the only one absorbed, by the terminate/wait/kill fallback |
| `CaptureProcess.StopIsBounded` | gui.py:307-320 | every timed wait is at most 3 seconds and the unbounded wait only ever follows a kill |
| `CaptureProcess.PosixGracefulExit` | gui.py:314-317 | on posix, a process that exits once terminated gets exactly poll, terminate and a wait of at most 3 seconds |
| `CaptureProcess.WindowsStopCalls` | gui.py:297-312 | on Windows, a running process gets taskkill alone; only if taskkill raises come terminate, a wait of at most 2 seconds and, on timeout, kill with no wait after it |
| `CaptureProcess.PosixTimeoutKillsThenWaits` | gui.py:314-320 | on posix, when the 3-second wait times out, kill is issued next and, if it does not raise, is followed by a wait for the exit |
| `CaptureProcess.CleanStopLeavesNoProcess` | gui.py:297-320 | a stop that raised nothing leaves the process alive if and only if, on Windows, taskkill ran without raising but did not end it |
| `CaptureProcess.ExitDiagnostics` | gui.py:250-260 | the immediate-exit message is never empty; whether a stream counts is decided on its raw bytes: stderr's text, then a line break and stdout's text if stdout had bytes; the console fixed message when that is empty, and the console-window fixed message when collecting raised |
| `CaptureProcess.UndecodableStdoutStillCounts` | gui.py:253-258 | stdout whose bytes all fail to decode still counts as written, giving a bare line break rather than the fixed message |
| `Gui.DnsTunnelingGui.constructor` | gui.py:32-40 | a new window has no capture process, monitoring off and cursor 0 |
| `Gui.DnsTunnelingGui.StartCapture` | gui.py:216-286 | a missing script or a launch that raises changes nothing; an exit within the grace period reports the diagnostics and keeps no process; a process still running is kept, turns monitoring on and resets the cursor to 0 |
| `Gui.DnsTunnelingGui.StopCapture` | gui.py:288-342 | with no process it is a no-op; otherwise it issues the platform's stop calls and always ends with no process and monitoring off, whether or not a call raised, reporting failure exactly when one did; the cursor is untouched |
| `Gui.DnsTunnelingGui.OnClosing` | gui.py:534-541 | with a process running and the user confirming, the capture is stopped before the window closes; if the user declines, nothing changes; with no process the window closes without stop calls |
| `Gui.DnsTunnelingGui.LoadCapturedQueries` | gui.py:344-394 | the view gains the rendering of exactly the rows `Poll` emits, in order, and the cursor moves as `Poll` says; the status shows the row count, "no queries yet" for an empty file, or stays as it was when the file is absent or unreadable |
| `Gui.DnsTunnelingGui.MonitorTicks` | gui.py:452-461 | a run of monitor ticks adds to the view exactly the rendering of what the run of polls emits, and leaves the cursor where the polls leave it |
| `Gui.DnsTunnelingGui.LoadSuspiciousQueries` | gui.py:396-445 | counting every row and every suspicious row in one pass gives exactly `SnapshotOf` of the read |

## Left out

- Tkinter layout, widgets, colours, dialog texts and the status-label strings (gui.py:17-30, 45-214). What a view or status line would show is returned as a datatype value.
- Real process control (`Popen`, `poll`, `communicate`, `terminate`, `kill`, `taskkill`, `subprocess.call`). Each call's result is a parameter: `Launch` for a start, `ProcessBehaviour` for a stop, `JobResult` for the analysis job. The model does not distinguish that Windows `terminate` and `kill` are the same call.
- The background thread, `root.after`, `time.sleep` and the 2-second and 0.5-second delays. The monitor is modelled as a sequence of ticks, each one poll. Its `self.monitoring or True` guard means the flag never affects polling.
- CSV parsing, UTF-8 decoding with errors ignored, and file existence and size checks. The model takes their results as inputs (`LogRead`, `SnapshotRead`, `ProjectFiles`).
- A poll that catches a half-written last line of the capture log parses it as a shorter row, counts it in the cursor and shows it truncated; the completed row is never shown. The exactly-once result assumes reads whose parsed rows extend each other, which such a read breaks.
- Short CSV rows. The CSV reader fills their missing cells with None. The tail reader would show those as "None", and a None prediction makes the substring test raise. Rows here hold only the fields that are present. A prediction read that raises at any point, this case included, is `ReadFailed`.
- Exceptions raised in `start_capture` after the process was launched (by `poll` or the UI calls) are not modelled. Only a raising launch is.
- The missing-`capture.py` check inside `start_capture` is the boolean parameter `scriptExists`. The project-root path and the process id are opaque values.
- `refresh_all` (gui.py:447-450) only calls the two readers in turn. `main` and the window-close confirmation dialog are left out; the user's answer is the `confirmed` parameter of `OnClosing`.

=== FILE: analysis.dfy ===
/** The "Analyse" action: three precondition checks in a fixed order,
    then one run of the external prediction job, then, only if the job
    succeeded, one read of the predictions file. */
module Analysis {
  import opened Options
  import opened CsvRows
  import opened Predictions

  /** What the project directory holds when the action starts: the
      capture log's size in bytes (None when the file is absent), and
      whether the trained model and the prediction script exist. */
  datatype ProjectFiles = ProjectFiles(
    captureLogSize: Option<nat>,
    modelExists: bool,
    predictScriptExists: bool)

  /** How the prediction job ends: with an exit code, or launching it raised. */
  datatype JobResult = Exited(code: int) | LaunchRaised(message: string)

  datatype AnalyseOutcome =
    | NoData                             // capture log missing or empty
    | ModelNotFound                      // best_dns_model.pkl missing
    | PredictScriptNotFound              // predict.py missing
    | AnalysisFailed(code: int)          // job exited with a non-zero code
    | AnalysisError(message: string)     // launching the job raised
    | AnalysisCompleted(results: Snapshot)
  {
    /** The external job was started (or at least attempted). */
    predicate JobInvoked()
    {
      AnalysisFailed? || AnalysisError? || AnalysisCompleted?
    }
  }

  predicate HasCaptureData(files: ProjectFiles)
  {
    files.captureLogSize.Some? && files.captureLogSize.value > 0
  }

  /** One "Analyse" action. `job` is how the prediction job ends if it is
      started and `after` is what reading the predictions file then yields.
      The checks come in a fixed order: no capture data wins over a missing
      model, which wins over a missing script. The job is started only when
      all three checks pass, and the predictions are read only when it
      exits with code 0; otherwise neither the job nor the predictions file
      influences the outcome. */
  function Analyse(files: ProjectFiles, job: JobResult, after: SnapshotRead): (o: AnalyseOutcome)
    ensures !HasCaptureData(files) ==> o == NoData
    ensures HasCaptureData(files) && !files.modelExists ==> o == ModelNotFound
    ensures HasCaptureData(files) && files.modelExists && !files.predictScriptExists ==>
              o == PredictScriptNotFound
    ensures o.JobInvoked() <==>
              HasCaptureData(files) && files.modelExists && files.predictScriptExists
    ensures o.AnalysisCompleted? <==> o.JobInvoked() && job == Exited(0)
    ensures o.AnalysisCompleted? ==> o.results == SnapshotOf(after)
    ensures o.JobInvoked() && job.Exited? && job.code != 0 ==> o == AnalysisFailed(job.code)
    ensures o.JobInvoked() && job.LaunchRaised? ==> o == AnalysisError(job.message)
  {
    if !HasCaptureData(files) then NoData
    else if !files.modelExists then ModelNotFound
    else if !files.predictScriptExists then PredictScriptNotFound
    else match job
      case LaunchRaised(m) => AnalysisError(m)
      case Exited(code) =>
        if code == 0 then AnalysisCompleted(SnapshotOf(after)) else AnalysisFailed(code)
  }

  /** Without a completed job the predictions file is never consulted: the
      outcome is the same whatever it would have held. */
  lemma PredictionsReadOnlyOnSuccess(files: ProjectFiles, job: JobResult, a: SnapshotRead, b: SnapshotRead)
    requires !Analyse(files, job, a).AnalysisCompleted?
    ensures Analyse(files, job, a) == Analyse(files, job, b)
  {
  }

  /** An empty project directory is reported as missing capture data, and
      no job is started. */
  lemma EmptyProjectIsNoData(job: JobResult, after: SnapshotRead)
    ensures Analyse(ProjectFiles(None, false, false), job, after) == NoData
    ensures !Analyse(ProjectFiles(None, false, false), job, after).JobInvoked()
  {
  }
}

=== FILE: capture_log.dfy ===
/** The capture log (dns_log.csv) and the incremental tail reader over it:
    how one row is rendered, what one poll emits, and what a run of polls
    emits over reads whose parsed rows only extend each other. */
module CaptureLog {
  import opened CsvRows

  /** How a captured row is labelled in the live view. */
  datatype Kind = Query | Response

  /** A captured row as it is shown, with every missing field defaulted. */
  datatype CapturedEntry = CapturedEntry(
    timestamp: string,
    qname: string,
    srcIp: string,
    dstIp: string,
    kind: Kind)

  /** What one attempt to read the capture log yields: the file is absent,
      reading or parsing it raised, or it holds these rows in file order. */
  datatype LogRead = Absent | Unreadable | Rows(rows: seq<Row>)

  /** Rows emitted by a poll, and the cursor (rows already shown) after it. */
  datatype PollResult = PollResult(newRows: seq<Row>, cursor: nat)

  /** Renders one row: a missing timestamp, qname, src_ip or dst_ip becomes
      "N/A"; a missing is_response counts as "0"; the row is a response
      exactly when is_response is "1". */
  function Render(row: Row): (e: CapturedEntry)
    ensures e.kind == Response <==> "is_response" in row && row["is_response"] == "1"
    ensures "timestamp" !in row ==> e.timestamp == "N/A"
    ensures "qname" !in row ==> e.qname == "N/A"
    ensures "src_ip" !in row ==> e.srcIp == "N/A"
    ensures "dst_ip" !in row ==> e.dstIp == "N/A"
    ensures "timestamp" in row ==> e.timestamp == row["timestamp"]
    ensures "qname" in row ==> e.qname == row["qname"]
    ensures "src_ip" in row ==> e.srcIp == row["src_ip"]
    ensures "dst_ip" in row ==> e.dstIp == row["dst_ip"]
  {
    var isResponse := Lookup(row, "is_response", "0");
    CapturedEntry(
      Lookup(row, "timestamp", "N/A"),
      Lookup(row, "qname", "N/A"),
      Lookup(row, "src_ip", "N/A"),
      Lookup(row, "dst_ip", "N/A"),
      if isResponse == "1" then Response else Query)
  }

  /** The rendering of a run of rows, element by element. */
  function RenderAll(rows: seq<Row>): seq<CapturedEntry>
  {
    seq(|rows|, i requires 0 <= i < |rows| => Render(rows[i]))
  }

  lemma RenderAllAppend(a: seq<Row>, b: seq<Row>)
    ensures RenderAll(a + b) == RenderAll(a) + RenderAll(b)
  {
  }

  /** One poll of the capture log with `cursor` rows already shown. Only
      when the file holds more rows than the cursor are the rows past the
      cursor emitted, and the cursor moves to the row count; an absent or
      unreadable file, or one with as many rows or fewer (also an emptied or
      shrunk file), emits nothing and leaves the cursor where it was. */
  function Poll(cursor: nat, log: LogRead): (r: PollResult)
    ensures r.cursor >= cursor
    ensures |r.newRows| == r.cursor - cursor
    ensures log.Rows? && |log.rows| > cursor ==>
              r.newRows == log.rows[cursor..] && r.cursor == |log.rows|
    ensures !(log.Rows? && |log.rows| > cursor) ==> r.newRows == [] && r.cursor == cursor
  {
    match log
    case Rows(rows) =>
      if |rows| > cursor then PollResult(rows[cursor..], |rows|) else PollResult([], cursor)
    case _ => PollResult([], cursor)
  }

  /** A run of polls, one per element of `logs`, starting from `cursor`:
      everything they emit, in order, and the cursor they leave. Whatever
      the files read, the cursor never goes back and the number of rows
      emitted is exactly how far it advanced. */
  function PollAll(cursor: nat, logs: seq<LogRead>): (r: PollResult)
    ensures r.cursor >= cursor
    ensures |r.newRows| == r.cursor - cursor
    decreases |logs|
  {
    if logs == [] then PollResult([], cursor)
    else
      var first := Poll(cursor, logs[0]);
      var rest := PollAll(first.cursor, logs[1..]);
      PollResult(first.newRows + rest.newRows, rest.cursor)
  }

  /** A run of polls extended by one more poll. */
  lemma {:induction false} PollAllSnoc(cursor: nat, logs: seq<LogRead>, log: LogRead)
    ensures var before := PollAll(cursor, logs);
            var last := Poll(before.cursor, log);
            PollAll(cursor, logs + [log]) == PollResult(before.newRows + last.newRows, last.cursor)
    decreases |logs|
  {
    if logs == [] {
      assert [] + [log] == [log];
      assert [log][1..] == [];
    } else {
      var first := Poll(cursor, logs[0]);
      assert (logs + [log])[0] == logs[0];
      assert (logs + [log])[1..] == logs[1..] + [log];
      PollAllSnoc(first.cursor, logs[1..], log);
    }
  }

  /** The reads in `logs` parse to rows that only extend each other from
      `start`: every snapshot read extends `start` and each snapshot extends
      the one before it. Absent and unreadable reads may fall anywhere in
      between. A file that grows in bytes need not satisfy this: a read that
      catches a half-written last line parses it as a shorter row. */
  ghost predicate AppendOnly(start: seq<Row>, logs: seq<LogRead>)
    decreases |logs|
  {
    logs == [] ||
    match logs[0]
    case Rows(rows) => start <= rows && AppendOnly(rows, logs[1..])
    case _ => AppendOnly(start, logs[1..])
  }

  /** The file as last seen by the reads in `logs`, or `start` if none of
      them saw it. */
  function Latest(start: seq<Row>, logs: seq<LogRead>): seq<Row>
    decreases |logs|
  {
    if logs == [] then start
    else match logs[0]
      case Rows(rows) => Latest(rows, logs[1..])
      case _ => Latest(start, logs[1..])
  }

  lemma {:induction false} LatestExtendsStart(start: seq<Row>, logs: seq<LogRead>)
    requires AppendOnly(start, logs)
    ensures start <= Latest(start, logs)
    decreases |logs|
  {
    if logs != [] {
      match logs[0]
      case Rows(rows) => LatestExtendsStart(rows, logs[1..]);
      case _ => LatestExtendsStart(start, logs[1..]);
    }
  }

  /** Exactly-once delivery: when the cursor counts the rows of `start`
      and the rows read only extend each other from there, a run of polls
      emits precisely the rows appended since, each once and in file order,
      and leaves the cursor at the row count of the file as last read,
      however the polls fall relative to the appends. */
  lemma {:induction false} ExactlyOnce(start: seq<Row>, logs: seq<LogRead>)
    requires AppendOnly(start, logs)
    ensures start <= Latest(start, logs)
    ensures PollAll(|start|, logs) == PollResult(Latest(start, logs)[|start|..], |Latest(start, logs)|)
    decreases |logs|
  {
    LatestExtendsStart(start, logs);
    if logs != [] {
      var first := Poll(|start|, logs[0]);
      match logs[0]
      case Rows(rows) =>
        ExactlyOnce(rows, logs[1..]);
        LatestExtendsStart(rows, logs[1..]);
        var last := Latest(rows, logs[1..]);
        if |rows| > |start| {
          assert first.newRows == rows[|start|..];
          assert rows[|start|..] + last[|rows|..] == last[|start|..];
        } else {
          assert rows == start;
        }
      case Absent =>
        ExactlyOnce(start, logs[1..]);
      case Unreadable =>
        ExactlyOnce(start, logs[1..]);
    }
  }
}

=== FILE: capture_process.dfy ===
/** The capture child process as the supervisor sees it: what an
    immediate exit reports, and which operating-system calls stopping it
    issues for each way the process and those calls may behave. */
module CaptureProcess {
  import opened Options

  datatype Platform = Windows | Posix

  /** The calls stopping a capture issues, in order. `Wait(t)` waits at
      most `t` seconds; `WaitForExit` waits without a bound. */
  datatype OsCall = PollExit | TaskKillTree | Terminate | Wait(timeout: nat) | Kill | WaitForExit

  /** How the running process and the calls on it behave: whether it had
      already exited when polled, whether it exits within the timeout once
      asked to terminate, whether `taskkill /F /T` actually ends it, and
      which calls raise. A kill always ends the process. */
  datatype ProcessBehaviour = ProcessBehaviour(
    exited: bool,
    exitsOnTerminate: bool,
    taskKillKills: bool,
    raising: set<OsCall>)

  /** The calls issued, whether one of them raised out of the stop
      procedure, and whether the process is still alive afterwards. */
  datatype Termination = Termination(calls: seq<OsCall>, raised: bool, aliveAfter: bool)

  /** Posix: terminate, wait up to 3 seconds, and on timeout kill and wait
      for the exit. A call that raises ends the procedure. */
  function PosixStop(b: ProcessBehaviour): Termination
  {
    var graceful := [PollExit, Terminate, Wait(3)];
    if Terminate in b.raising then Termination([PollExit, Terminate], true, true)
    else if Wait(3) in b.raising then Termination(graceful, true, !b.exitsOnTerminate)
    else if b.exitsOnTerminate then Termination(graceful, false, false)
    else if Kill in b.raising then Termination(graceful + [Kill], true, true)
    else Termination(graceful + [Kill, WaitForExit], WaitForExit in b.raising, false)
  }

  /** Windows: `taskkill /F /T` on the process tree; only if that call
      raises, terminate, wait up to 2 seconds and kill on timeout, without
      waiting after the kill. The exit status of taskkill is not examined. */
  function WindowsStop(b: ProcessBehaviour): Termination
  {
    var fallback := [PollExit, TaskKillTree, Terminate, Wait(2)];
    if TaskKillTree !in b.raising then Termination([PollExit, TaskKillTree], false, !b.taskKillKills)
    else if Terminate in b.raising then Termination([PollExit, TaskKillTree, Terminate], true, true)
    else if Wait(2) in b.raising then Termination(fallback, true, !b.exitsOnTerminate)
    else if b.exitsOnTerminate then Termination(fallback, false, false)
    else Termination(fallback + [Kill], Kill in b.raising, Kill in b.raising)
  }

  /** The calls that stop a running process on `platform` when no call
      raises, except possibly taskkill (whose raise sends Windows to its
      fallback): posix terminates, waits up to 3 seconds and on timeout
      kills and waits for the exit; Windows uses taskkill alone, or on its
      raise terminates, waits up to 2 seconds and on timeout kills. */
  function Planned(platform: Platform, b: ProcessBehaviour): seq<OsCall>
  {
    match platform
    case Posix =>
      [PollExit, Terminate, Wait(3)] + (if b.exitsOnTerminate then [] else [Kill, WaitForExit])
    case Windows =>
      if TaskKillTree !in b.raising then [PollExit, TaskKillTree]
      else [PollExit, TaskKillTree, Terminate, Wait(2)] + (if b.exitsOnTerminate then [] else [Kill])
  }

  /** Stopping a supervised process: poll it, and only if it is still
      running, end it the platform's way. */
  function Stop(platform: Platform, b: ProcessBehaviour): (t: Termination)
    ensures |t.calls| > 0 && t.calls[0] == PollExit
    // when the procedure raises, the raise comes from the last call issued
    ensures t.raised ==> t.calls[|t.calls| - 1] in b.raising
    // a raise other than taskkill's ends the procedure: no call follows it
    ensures forall i :: 0 <= i < |t.calls| - 1 && t.calls[i] in b.raising ==> t.calls[i] == TaskKillTree
    // the procedure raises exactly when some call other than taskkill did;
    // taskkill's raise is absorbed by the fallback
    ensures t.raised <==> exists i :: 0 <= i < |t.calls| && t.calls[i] in b.raising && t.calls[i] != TaskKillTree
    // a running process gets its platform's planned calls, in order, up to
    // and including the first call that raises (taskkill aside)
    ensures PollExit !in b.raising && !b.exited ==>
              t.calls <= Planned(platform, b) &&
              (t.calls == Planned(platform, b) || t.calls[|t.calls| - 1] in b.raising - {TaskKillTree})
    // a process that had already exited is left alone
    ensures PollExit !in b.raising && b.exited ==> t == Termination([PollExit], false, false)
  {
    if PollExit in b.raising then Termination([PollExit], true, !b.exited)
    else if b.exited then Termination([PollExit], false, false)
    else match platform
      case Posix => PosixStop(b)
      case Windows => WindowsStop(b)
  }

  /** Every wait is bounded: timed waits last at most 3 seconds, and the
      unbounded wait is only issued right after a kill. */
  lemma StopIsBounded(platform: Platform, b: ProcessBehaviour)
    ensures var calls := Stop(platform, b).calls;
            forall i :: 0 <= i < |calls| && calls[i].Wait? ==> calls[i].timeout <= 3
    ensures var calls := Stop(platform, b).calls;
            forall i :: 0 <= i < |calls| && calls[i] == WaitForExit ==> i > 0 && calls[i - 1] == Kill
  {
  }

  /** On posix, when the graceful wait times out the process is killed and
      then waited on. */
  lemma PosixTimeoutKillsThenWaits(b: ProcessBehaviour)
    requires !b.exited && !b.exitsOnTerminate
    requires PollExit !in b.raising && Terminate !in b.raising && Wait(3) !in b.raising
    ensures var t := Stop(Posix, b);
            t.calls[..4] == [PollExit, Terminate, Wait(3), Kill] &&
            (Kill !in b.raising ==> t.calls == [PollExit, Terminate, Wait(3), Kill, WaitForExit])
  {
  }

  /** On posix, a process that exits once asked to terminate is polled,
      terminated and waited on for at most 3 seconds, and nothing more. */
  lemma PosixGracefulExit(b: ProcessBehaviour)
    requires !b.exited && b.exitsOnTerminate
    requires PollExit !in b.raising && Terminate !in b.raising && Wait(3) !in b.raising
    ensures Stop(Posix, b) == Termination([PollExit, Terminate, Wait(3)], false, false)
  {
  }

  /** On Windows, a running process is ended by taskkill alone; only when
      taskkill raises does the fallback terminate, wait up to 2 seconds and
      kill on timeout, without waiting after the kill. */
  lemma WindowsStopCalls(b: ProcessBehaviour)
    requires !b.exited && PollExit !in b.raising
    ensures TaskKillTree !in b.raising ==> Stop(Windows, b).calls == [PollExit, TaskKillTree]
    ensures TaskKillTree in b.raising && Terminate !in b.raising && Wait(2) !in b.raising ==>
              Stop(Windows, b).calls ==
                [PollExit, TaskKillTree, Terminate, Wait(2)] + (if b.exitsOnTerminate then [] else [Kill])
  {
  }

  /** A stop that raised nothing leaves no process behind, except on
      Windows when taskkill ran without raising but did not end the
      process. */
  lemma CleanStopLeavesNoProcess(platform: Platform, b: ProcessBehaviour)
    ensures var t := Stop(platform, b);
            !t.raised && t.aliveAfter <==>
              platform == Windows && PollExit !in b.raising && !b.exited &&
              TaskKillTree !in b.raising && !b.taskKillKills
  {
  }

  /** What `communicate` collected from one stream of a child process:
      whether any bytes arrived at all, and their UTF-8 decoding with
      undecodable bytes dropped (so text can be empty although bytes
      arrived). A stream that was not piped, as on Windows where the
      capture gets its own console, has no bytes. */
  datatype Stream = Stream(written: bool, text: string)

  datatype ChildOutput = ChildOutput(stdout: Stream, stderr: Stream)

  const ExitedMessage: string := "Process exited immediately. Check console for details."
  const ExitedWindowMessage: string := "Process exited immediately. Check console window for details."

  /** What the error dialog shows when the capture exits during the grace
      period. `output` is what was collected from the exited process, or
      None when collecting it raised. Whether a stream contributes is
      decided on its raw bytes: standard error's text comes first, then, if
      standard output had bytes, a line break and its text. Only when that
      leaves nothing is a fixed message used; the message is never empty. */
  function ExitDiagnostics(output: Option<ChildOutput>): (msg: string)
    ensures |msg| > 0
    ensures output.None? ==> msg == ExitedWindowMessage
    ensures output.Some? && output.value.stdout.written ==>
              msg == (if output.value.stderr.written then output.value.stderr.text else "")
                     + "\n" + output.value.stdout.text
    ensures output.Some? && !output.value.stdout.written &&
            output.value.stderr.written && output.value.stderr.text != "" ==>
              msg == output.value.stderr.text
    ensures output.Some? && !output.value.stdout.written &&
            (!output.value.stderr.written || output.value.stderr.text == "") ==>
              msg == ExitedMessage
  {
    match output
    case None => ExitedWindowMessage
    case Some(ChildOutput(stdout, stderr)) =>
      var fromStderr := if stderr.written then stderr.text else "";
      var collected := if stdout.written then fromStderr + "\n" + stdout.text else fromStderr;
      if collected == "" then ExitedMessage else collected
  }

  /** Standard output whose bytes all fail to decode still counts as
      written: the message is a bare line break, not the fixed message. */
  lemma UndecodableStdoutStillCounts()
    ensures ExitDiagnostics(Some(ChildOutput(Stream(true, ""), Stream(false, "")))) == "\n"
  {
  }
}

=== FILE: csv_rows.dfy ===
/** An optional value: a missing file, a field that was never set, or a
    process handle that is not there. */
module Options {
  datatype Option<T> = None | Some(value: T)
}

/** Rows of the two CSV files as the GUI sees them after parsing: one
    dictionary per row, keyed by column name, holding only the columns the
    row actually has. */
module CsvRows {

  /** One parsed CSV row: column name to cell text. */
  type Row = map<string, string>

  /** Dictionary lookup with a fallback, as `row.get(key, default)` does. */
  function Lookup(row: Row, key: string, default: string): string
  {
    if key in row then row[key] else default
  }
}

=== FILE: gui.dfy ===
/** The desktop application's stateful core: the supervised capture
    process, the monitoring flag and the tail reader's cursor, with the
    actions that change them. Widgets, dialogs and colours are not part of
    this model; what an action would display is returned as a value. */
module Gui {
  import opened Options
  import opened CsvRows
  import opened CaptureLog
  import opened Predictions
  import opened CaptureProcess

  type ProcessId = nat

  /** How launching capture.py goes: starting it raised, it exited within
      the half-second grace period (with what could be collected from it,
      or None when collecting raised), or it is still running. */
  datatype Launch = LaunchRaised(message: string) | ExitedEarly(output: Option<ChildOutput>) | StillRunning(pid: ProcessId)

  datatype StartReport = CaptureScriptNotFound | StartFailed(message: string) | ImmediateExit(diagnostics: string) | Started

  datatype StopReport = NotRunning | Stopped | StopFailed

  /** The captured-queries status line after a poll. */
  datatype CaptureStatus = StatusUnchanged | NoQueriesYet | TotalCaptured(count: nat)

  class DnsTunnelingGui {
    var captureProcess: Option<ProcessId>
    var monitoring: bool
    /** Rows of the capture log already shown. */
    var lastCaptureCount: nat

    constructor ()
      ensures captureProcess == None && !monitoring && lastCaptureCount == 0
    {
      captureProcess := None;
      monitoring := false;
      lastCaptureCount := 0;
    }

    /** Start Capture. A missing script or a launch that raises changes
        nothing; a process that is gone by the end of the grace period is
        reported with its diagnostics and not kept; a process still running
        is kept, monitoring is switched on and the captured view restarts
        from the first row of the log. */
    method StartCapture(scriptExists: bool, launch: Launch) returns (report: StartReport)
      modifies this
      ensures !scriptExists ==> report == CaptureScriptNotFound && unchanged(this)
      ensures scriptExists && launch.LaunchRaised? ==>
                report == StartFailed(launch.message) && unchanged(this)
      ensures scriptExists && launch.ExitedEarly? ==>
                report == ImmediateExit(ExitDiagnostics(launch.output)) &&
                captureProcess == None && monitoring == old(monitoring) &&
                lastCaptureCount == old(lastCaptureCount)
      ensures scriptExists && launch.StillRunning? ==>
                report == Started && captureProcess == Some(launch.pid) &&
                monitoring && lastCaptureCount == 0
    {
      if !scriptExists {
        return CaptureScriptNotFound;
      }
      match launch
      case LaunchRaised(message) =>
        report := StartFailed(message);
      case ExitedEarly(output) =>
        report := ImmediateExit(ExitDiagnostics(output));
        captureProcess := None;
      case StillRunning(pid) =>
        captureProcess := Some(pid);
        monitoring := true;
        lastCaptureCount := 0;
        report := Started;
    }

    /** Stop Capture. Without a process it does nothing. Otherwise it runs
        the platform's stop procedure and, whether or not a call raised,
        forgets the process and switches monitoring off; the cursor is
        never touched. */
    method StopCapture(platform: Platform, b: ProcessBehaviour) returns (calls: seq<OsCall>, report: StopReport)
      modifies this`captureProcess, this`monitoring
      ensures old(captureProcess).None? ==>
                calls == [] && report == NotRunning && unchanged(this)
      ensures old(captureProcess).Some? ==>
                captureProcess == None && !monitoring &&
                calls == Stop(platform, b).calls &&
                (report == StopFailed <==> Stop(platform, b).raised) && report != NotRunning
    {
      if captureProcess.None? {
        return [], NotRunning;
      }
      var t := Stop(platform, b);
      calls := t.calls;
      report := if t.raised then StopFailed else Stopped;
      captureProcess := None;
      monitoring := false;
    }

    /** Closing the window. With a process running and the user agreeing,
        the capture is stopped before the window goes; if the user declines,
        nothing happens. Without a process the window simply closes. */
    method OnClosing(confirmed: bool, platform: Platform, b: ProcessBehaviour) returns (destroyed: bool, calls: seq<OsCall>)
      modifies this`captureProcess, this`monitoring
      ensures old(captureProcess).None? ==> destroyed && calls == [] && unchanged(this)
      ensures old(captureProcess).Some? && !confirmed ==> !destroyed && calls == [] && unchanged(this)
      ensures old(captureProcess).Some? && confirmed ==>
                destroyed && captureProcess == None && !monitoring && calls == Stop(platform, b).calls
    {
      calls := [];
      if captureProcess.Some? {
        if confirmed {
          var report;
          calls, report := StopCapture(platform, b);
          destroyed := true;
        } else {
          destroyed := false;
        }
      } else {
        destroyed := true;
      }
    }

    /** One poll of the capture log: the entries appended to the view and
        the status line. Exactly the rows `Poll` emits are rendered, in
        order, and the cursor moves as `Poll` says; an absent or unreadable
        log leaves the status line alone. */
    method LoadCapturedQueries(log: LogRead) returns (shown: seq<CapturedEntry>, status: CaptureStatus)
      modifies this`lastCaptureCount
      ensures var p := Poll(old(lastCaptureCount), log);
              shown == RenderAll(p.newRows) && lastCaptureCount == p.cursor
      ensures !log.Rows? ==> status == StatusUnchanged
      ensures log.Rows? ==> status == if log.rows == [] then NoQueriesYet else TotalCaptured(|log.rows|)
    {
      shown, status := [], StatusUnchanged;
      match log
      case Absent =>
      case Unreadable =>
      case Rows(rows) =>
        if |rows| > lastCaptureCount {
          var newRows := rows[lastCaptureCount..];
          lastCaptureCount := |rows|;
          for i := 0 to |newRows|
            invariant shown == RenderAll(newRows[..i])
            invariant lastCaptureCount == |rows|
          {
            assert newRows[..i + 1] == newRows[..i] + [newRows[i]];
            RenderAllAppend(newRows[..i], [newRows[i]]);
            shown := shown + [Render(newRows[i])];
          }
          assert newRows[..|newRows|] == newRows;
          status := TotalCaptured(|rows|);
        } else if |rows| == 0 {
          status := NoQueriesYet;
        } else {
          status := TotalCaptured(|rows|);
        }
    }

    /** The background monitor, one tick per element of `logs` (each tick
        a poll of the capture log, whatever the monitoring flag says): the
        view gains exactly what the run of polls emits, in order. */
    method MonitorTicks(logs: seq<LogRead>) returns (shown: seq<CapturedEntry>)
      modifies this`lastCaptureCount
      ensures var r := PollAll(old(lastCaptureCount), logs);
              shown == RenderAll(r.newRows) && lastCaptureCount == r.cursor
    {
      shown := [];
      ghost var start := lastCaptureCount;
      for i := 0 to |logs|
        invariant var r := PollAll(start, logs[..i]);
                  shown == RenderAll(r.newRows) && lastCaptureCount == r.cursor
      {
        ghost var before := PollAll(start, logs[..i]);
        var tick, status := LoadCapturedQueries(logs[i]);
        PollAllSnoc(start, logs[..i], logs[i]);
        assert logs[..i + 1] == logs[..i] + [logs[i]];
        RenderAllAppend(before.newRows, Poll(before.cursor, logs[i]).newRows);
        shown := shown + tick;
      }
      assert logs[..|logs|] == logs;
    }

    /** One full read of the predictions file, counting every row and the
        suspicious ones and listing the latter in order. */
    method LoadSuspiciousQueries(read: SnapshotRead) returns (s: Snapshot)
      ensures s == SnapshotOf(read)
    {
      match read
      case NoPredictionsFile =>
        s := NoAnalysisYet;
      case ReadFailed(message) =>
        s := LoadError(message);
      case Predictions(rows) =>
        var suspiciousCount, totalCount := 0, 0;
        var entries: seq<SuspiciousEntry> := [];
        for i := 0 to |rows|
          invariant totalCount == i
          invariant entries == Flagged(rows[..i])
          invariant suspiciousCount == |entries|
        {
          var row := rows[i];
          totalCount := totalCount + 1;
          var prediction := PredictionOf(row);
          assert rows[..i + 1][..i] == rows[..i];
          if IsSuspicious(prediction) {
            suspiciousCount := suspiciousCount + 1;
            entries := entries + [EntryOf(row)];
          }
        }
        assert rows[..|rows|] == rows;
        if suspiciousCount == 0 {
          s := AllSafe(totalCount);
        } else {
          s := SuspiciousFound(entries, totalCount);
        }
    }
  }
}

=== FILE: predictions.dfy ===
/** The predictions file (dns_predictions.csv) and the snapshot reader over
    it: which rows count as suspicious, and what one full read reports. */
module Predictions {
  import opened CsvRows

  /** Python's `t in s` on strings: `t` occurs in `s` as a contiguous
      run. The empty string occurs in every string. */
  predicate Contains(s: string, t: string)
    decreases |s|
  {
    if |s| < |t| then false
    else s[..|t|] == t || (|s| > |t| && Contains(s[1..], t))
  }

  /** `t` occurs in `s` starting at position `i`. */
  ghost predicate OccursAt(s: string, t: string, i: int)
  {
    0 <= i && i + |t| <= |s| && s[i..i + |t|] == t
  }

  /** The substring test agrees with its definition by positions. */
  lemma {:induction false} ContainsIff(s: string, t: string)
    ensures Contains(s, t) <==> exists i :: OccursAt(s, t, i)
    decreases |s|
  {
    if |s| >= |t| && s[..|t|] == t {
      assert OccursAt(s, t, 0);
    }
    if |s| > |t| {
      ContainsIff(s[1..], t);
      if Contains(s[1..], t) {
        var i :| OccursAt(s[1..], t, i);
        assert s[i + 1..i + 1 + |t|] == s[1..][i..i + |t|];
        assert OccursAt(s, t, i + 1);
      }
      if exists i :: OccursAt(s, t, i) {
        var i :| OccursAt(s, t, i);
        if i > 0 {
          assert s[1..][i - 1..i - 1 + |t|] == s[i..i + |t|];
          assert OccursAt(s[1..], t, i - 1);
        }
      }
    } else if |s| == |t| {
      if exists i :: OccursAt(s, t, i) {
        var i :| OccursAt(s, t, i);
        assert i == 0;
      }
    }
  }

  /** A one-character string occurs exactly where that character does. */
  lemma {:induction false} ContainsChar(s: string, c: char)
    ensures Contains(s, [c]) <==> c in s
    decreases |s|
  {
    if |s| > 0 {
      assert s[..1] == [c] <==> s[0] == c;
      assert s == [s[0]] + s[1..];
    }
    if |s| > 1 {
      ContainsChar(s[1..], c);
    }
  }

  /** The red-circle sentinel the classifier may print instead of text. */
  const RedCircle: string := "\U{1F534}"

  /** A prediction label marks its row suspicious when it contains the word
      "Suspicious" (case-sensitive) or the red-circle sentinel anywhere. */
  predicate IsSuspicious(prediction: string)
  {
    Contains(prediction, "Suspicious") || Contains(prediction, RedCircle)
  }

  /** A row's prediction, "" when the column is missing. */
  function PredictionOf(row: Row): string
  {
    Lookup(row, "prediction", "")
  }

  /** Both encodings of the positive label are recognised. */
  lemma SuspiciousEncodings()
    ensures IsSuspicious("Suspicious - tunneling")
    ensures IsSuspicious(RedCircle)
  {
  }

  /** A benign label, and a lower-case "suspicious", are not suspicious. */
  lemma BenignExamples()
    ensures !IsSuspicious("Benign")
    ensures !IsSuspicious("suspicious")
  {
    ContainsChar("Benign", RedCircle[0]);
    ContainsChar("suspicious", RedCircle[0]);
    assert "suspicious"[..10] != "Suspicious" by {
      assert "suspicious"[0] != "Suspicious"[0];
    }
  }

  /** A row without a prediction column is never suspicious. */
  lemma MissingPredictionIsBenign(row: Row)
    requires "prediction" !in row
    ensures !IsSuspicious(PredictionOf(row))
  {
  }

  /** Any label that embeds a positive marker is suspicious. */
  lemma {:induction false} MarkerAnywhereIsSuspicious(prefix: string, marker: string, suffix: string)
    requires marker == "Suspicious" || marker == RedCircle
    ensures IsSuspicious(prefix + marker + suffix)
  {
    var s := prefix + marker + suffix;
    assert s[|prefix|..|prefix| + |marker|] == marker;
    assert OccursAt(s, marker, |prefix|);
    ContainsIff(s, marker);
  }

  /** A suspicious row as listed: its qname and confidence, "N/A" when
      missing. */
  datatype SuspiciousEntry = SuspiciousEntry(qname: string, confidence: string)

  function EntryOf(row: Row): SuspiciousEntry
  {
    SuspiciousEntry(Lookup(row, "qname", "N/A"), Lookup(row, "confidence", "N/A"))
  }

  /** The suspicious rows' entries, in file order. */
  function Flagged(rows: seq<Row>): (r: seq<SuspiciousEntry>)
    ensures |r| <= |rows|
    ensures r == [] <==> forall i :: 0 <= i < |rows| ==> !IsSuspicious(PredictionOf(rows[i]))
    decreases |rows|
  {
    if rows == [] then []
    else
      var last := rows[|rows| - 1];
      var front := Flagged(rows[..|rows| - 1]);
      assert forall i :: 0 <= i < |rows| - 1 ==> rows[..|rows| - 1][i] == rows[i];
      front + (if IsSuspicious(PredictionOf(last)) then [EntryOf(last)] else [])
  }

  /** Flagging distributes over concatenation: each part of the file
      contributes its own suspicious rows, in order. */
  lemma {:induction false} FlaggedAppend(a: seq<Row>, b: seq<Row>)
    ensures Flagged(a + b) == Flagged(a) + Flagged(b)
    decreases |b|
  {
    if b == [] {
      assert a + b == a;
    } else {
      var b', last := b[..|b| - 1], b[|b| - 1];
      var tail := if IsSuspicious(PredictionOf(last)) then [EntryOf(last)] else [];
      assert (a + b)[..|a + b| - 1] == a + b';
      assert (a + b)[|a + b| - 1] == last;
      assert Flagged(a + b) == Flagged(a + b') + tail;
      assert Flagged(b) == Flagged(b') + tail;
      FlaggedAppend(a, b');
    }
  }

  /** One row is flagged exactly when it is suspicious. */
  lemma FlaggedSingle(row: Row)
    ensures Flagged([row]) == if IsSuspicious(PredictionOf(row)) then [EntryOf(row)] else []
  {
  }

  /** What one attempt to read the predictions file yields: no file, a read
      that raised (with its message), or the rows in file order. */
  datatype SnapshotRead = NoPredictionsFile | ReadFailed(message: string) | Predictions(rows: seq<Row>)

  /** What the suspicious-queries view reports after a read. */
  datatype Snapshot =
    | NoAnalysisYet
    | LoadError(message: string)
    | AllSafe(total: nat)
    | SuspiciousFound(entries: seq<SuspiciousEntry>, total: nat)
  {
    /** Number of rows analysed. */
    function TotalCount(): nat
    {
      match this
      case AllSafe(t) => t
      case SuspiciousFound(_, t) => t
      case _ => 0
    }

    /** Number of rows flagged. */
    function SuspiciousCount(): nat
    {
      if SuspiciousFound? then |entries| else 0
    }
  }

  /** The report of one full read of the predictions file. An absent file
      means no analysis has been run, which is told apart from an analysis
      that found nothing; a read error is its own outcome; otherwise the
      total is the row count and the suspicious rows are listed in order,
      never more of them than rows. */
  function SnapshotOf(read: SnapshotRead): (s: Snapshot)
    ensures read.NoPredictionsFile? <==> s.NoAnalysisYet?
    ensures read.ReadFailed? <==> s.LoadError?
    ensures read.ReadFailed? ==> s.message == read.message
    ensures read.Predictions? ==>
              s.TotalCount() == |read.rows| &&
              s.SuspiciousCount() == |Flagged(read.rows)| <= |read.rows|
    ensures read.Predictions? && Flagged(read.rows) != [] ==>
              s == SuspiciousFound(Flagged(read.rows), |read.rows|)
    ensures read.Predictions? ==>
              (s == AllSafe(|read.rows|) <==>
               forall i :: 0 <= i < |read.rows| ==> !IsSuspicious(PredictionOf(read.rows[i])))
  {
    match read
    case NoPredictionsFile => NoAnalysisYet
    case ReadFailed(m) => LoadError(m)
    case Predictions(rows) =>
      var flagged := Flagged(rows);
      if flagged == [] then AllSafe(|rows|) else SuspiciousFound(flagged, |rows|)
  }
}
